=== FILE: README.md ===
# ldrop controller, modelled in Dafny

This project models the sensor-orchestration core of ldrop. That core is the
`Controller` in `ldrop/Ldrop.py` together with the base `Sensor` record in
`ldrop/Sensor.py`. The controller keeps an ordered list of plugin-supplied
sensors. It starts and stops their recordings in list order and fans every tag
out to all of them. It routes actions and messages to individual sensors. It
relays sensor events and experiment callbacks to whoever is attached.

The glib main loop, the plugin manager, the GTK view and the event emitter are
abstracted away. What remains is a sequential state machine over values:

- `Ldrop.Controller` is the controller's state. It holds the sensor list, the
  keyboard contingency list, the four experiment callbacks, the participant id,
  the controller's own listeners, and the queue of tasks handed to `idle_add`.
  It also holds a trace of effects: calls made on sensors, notifications
  emitted, plugin factory calls, and callbacks run inline.
- Each controller method is a pure function from one state to the next.
  Python exceptions are modelled with the `Step`/`Outcome` result.
- `Sensors.Sensor` is the base sensor record. Its fields are the id, type,
  control elements, data conditions and the emitter's listener table.
  `Subscriptions` models that listener table and the controller's
  `add_model`/`remove_model`.
- `Decimal` models Python's `str` of a non-negative int and its inverse, which
  the sensor id is built from. `Paths` models POSIX `os.path.join`.
- `LdropProperties` holds the lemmas that relate several operations.

Inputs the source takes from the environment are parameters of the model:

- the home directory (`NewController(home)`);
- the value `random.randint` drew (`NewSensor(draw)`);
- the clock reading `time.time()` returns (`OnKeypress(c, key, now)`);
- the plugin registry (`AddSensor(c, name, registry)`), a map from plugin name
  to what its factory does: create a sensor, fail with a message, or not call
  back yet.

Behaviour of the code a reader may not expect, which the model follows:

- `remove_sensor` emits `sensorcount_changed` even when no sensor has the id.
- `message_to_sensor` delivers nothing (see Findings).
- Sensors are kept in a list, not a map keyed by id, and ids may repeat.
- `start_collecting_data` has no "already collecting" guard and keeps no
  session flag.

## Model

| member | source | states |
|---|---|---|
| Sensors.NewSensor | ldrop/Sensor.py:18-28 | A new sensor's id is "sensor" followed by the decimal draw, which parses back to the draw and has 1 to 6 digits. Its type is None. Its control elements, data conditions and listeners are empty. |
| Sensors.SensorIdsCollideIffDrawsDo | ldrop/Sensor.py:26-28 | Two constructed sensors get the same id exactly when the two random draws are equal, so ids are unique only as far as the draws are. |
| Sensors.ParsedIdIsConstructed | ldrop/Sensor.py:27-28 | Every id the parser accepts with a draw up to 100000 is the id the constructor builds from that draw. |
| Decimal.ParseToDecimal | ldrop/Sensor.py:28 | The decimal text of n parses back to n. |
| Decimal.ToDecimalOfParse | ldrop/Sensor.py:28 | Every text the parser accepts is the decimal text of the number it yields, so the rendering is a bijection onto canonical digit strings. |
| Decimal.WidthBelowPower | ldrop/Sensor.py:27-28 | A number below 10^k renders in at most k digits, which bounds the id length for draws up to 100000. |
| Sensors.AccessorsReadStoredFields | ldrop/Sensor.py:18-28 | On a fresh sensor, `GetType` (`get_type`), `GetControlElements` (`get_control_elements`) and `GetSensorId` (`get_sensor_id`) read back what was stored: `get_type` returns None, `get_control_elements` returns an empty list, and `get_sensor_id` returns an id that parses back to the draw. |
| Sensors.ConditionUpdatesKeepAccessors | ldrop/Sensor.py:52-70 | For any sensor, `set_data_condition` and `clear_data_conditions` each leave the answers of `GetType` (`get_type`), `GetSensorId` (`get_sensor_id`) and `GetControlElements` (`get_control_elements`) unchanged. |
| Sensors.SetDataCondition | ldrop/Sensor.py:56-58 | The condition is appended after the existing ones. Every other field is unchanged. |
| Sensors.ClearDataConditions | ldrop/Sensor.py:60-62 | The conditions become empty. Every other field is unchanged. |
| Sensors.SetDataConditionsAppendsInOrder | ldrop/Sensor.py:56-58 | A run of `set_data_condition` calls leaves the conditions in call order after the earlier ones. Nothing else changes. |
| Sensors.ClearForgetsConditions | ldrop/Sensor.py:56-62 | Clearing is idempotent, and clearing after any run of sets gives the same sensor as clearing before them. |
| Sensors.DefaultAction | ldrop/Sensor.py:48-50 | The base `action` handles no action id. |
| Sensors.TrialStarted | ldrop/Sensor.py:30-38 | The base `trial_started` returns False. |
| Sensors.TrialCompleted | ldrop/Sensor.py:40-42 | The base `trial_completed` returns False. |
| Sensors.DisconnectSensor | ldrop/Sensor.py:81-85 | `clear_screen` reaches exactly the handlers listening for it before removal, each once per registration. Afterwards the listener table is empty and the other fields are unchanged. It returns False. |
| Sensors.DisconnectIsFinal | ldrop/Sensor.py:81-85 | A second disconnect notifies nobody and changes nothing. |
| Subscriptions.AddModel | ldrop/Ldrop.py:56-66 | Exactly seven (event, handler) pairs are appended, in the source's order, after the existing listeners. |
| Subscriptions.RemoveModel | ldrop/Ldrop.py:225-233 | Exactly one copy of each of the seven pairs is removed, where present. |
| Subscriptions.RemoveListenerDropsEarliest | ldrop/Ldrop.py:225-233 | Each `remove_listener` call drops the earliest registration of its (event, handler) pair and keeps every other registration in order. |
| Subscriptions.RemoveModelUndoesAddModel | ldrop/Ldrop.py:225-233 | On a table holding none of the seven relays, `remove_model` after `add_model` gives back the identical table. |
| Subscriptions.RemoveModelRestoresRegistrations | ldrop/Ldrop.py:225-233 | On any table, `remove_model` after `add_model` restores the same multiset of registrations. |
| Paths.Join | ldrop/Ldrop.py:264 | The sub-directory is always a suffix of the path. An absolute one replaces the save root. Otherwise the save root is a prefix, followed by exactly one `/` unless it is empty or already ends in `/`, in which case nothing is inserted. |
| LdropProperties.SavePathPlacement | ldrop/Ldrop.py:262-266 | With an absolute sub-directory every sensor records straight into it, escaping the save root. With a relative one every sensor records under `savedir/subdir`. |
| LdropProperties.NewControllerSaveRootIsRecordings | ldrop/Ldrop.py:27-31 | A fresh controller's save root ends in `recordings` and not in `/`, so relative sub-directories are joined under it with one `/`. |
| Ldrop.NewController | ldrop/Ldrop.py:17-54 | The data root is `Documents/ldrop_data` under the home directory. The save directory is `recordings` under the data root. No sensors, contingency keys, callbacks, listeners, tasks or effects exist yet. The participant id is empty. |
| Ldrop.OnSensorCreated | ldrop/Ldrop.py:172-178 | The sensor is appended at the end and the earlier sensors are unchanged. It gains exactly the seven relays after its own listeners. `sensorcount_changed` is emitted. Nothing else changes. |
| Ldrop.OnSensorError | ldrop/Ldrop.py:168-170 | `error` is emitted with the message. The sensor list and everything else are unchanged. |
| Ldrop.AddSensor | ldrop/Ldrop.py:68-78 | An unknown plugin name changes nothing: no factory call, no emission. A known one first calls the factory with the data root. A success then registers the sensor. A failure emits `error` and changes nothing else. |
| Ldrop.RemovePass | ldrop/Ldrop.py:237-240 | Every sensor the loop drops carries the id being removed. |
| LdropProperties.RemovePassInterleaves | ldrop/Ldrop.py:237-240 | For any list, the sensors the loop keeps and the ones it drops are both in list order, and the list is an interleaving of the two. |
| LdropProperties.RemovePassKeepsOthersInOrder | ldrop/Ldrop.py:237-240 | For any list, every sensor without the id survives the loop, in its original relative order. |
| LdropProperties.RemoveSensorKeepsOrder | ldrop/Ldrop.py:235-241 | For any list, `remove_sensor` leaves the survivors in their old order. The disconnected sensors are also in list order. The two interleave to the old list, and every sensor without the id remains. |
| Ldrop.RemovePassPartitions | ldrop/Ldrop.py:237-240 | The loop loses no sensor and invents none: the kept and dropped sensors together are exactly the original sensors, counted with multiplicity. |
| Ldrop.RemoveSensor | ldrop/Ldrop.py:235-241 | The list becomes what the loop keeps. Each dropped sensor gets one `disconnect`, in order. `sensorcount_changed` is emitted last, always. |
| Ldrop.RemoveSensorAll | ldrop/Ldrop.py:235-241 | Intended behaviour: the remaining sensors are exactly those without the id, in their original order. Each sensor with the id is disconnected once, in order, followed by `sensorcount_changed`. |
| LdropProperties.FiltersPartition | ldrop/Ldrop.py:235-241 | The sensors with the id and the sensors without it together make up the list, counted with multiplicity. |
| LdropProperties.WithoutIdKeepsOrder | ldrop/Ldrop.py:235-241 | Dropping the sensors with the id commutes with concatenation, so the survivors keep their relative order. |
| LdropProperties.RemoveSensorAllSplitsList | ldrop/Ldrop.py:235-241 | However the list is cut in two, the intended removal keeps the survivors of the first part before those of the second. Kept and disconnected sensors together are the original list. |
| LdropProperties.RemovePassFiltersWithoutAdjacentMatches | ldrop/Ldrop.py:237-240 | If no two neighbours share the id, the loop keeps exactly the other sensors in their original order and drops exactly the matching ones. |
| LdropProperties.RemoveSensorAsIntendedWithoutAdjacentMatches | ldrop/Ldrop.py:235-241 | If no two neighbours share the id, the code as written and the intended removal agree. |
| LdropProperties.RemoveSensorSkipsAdjacentDuplicate | ldrop/Ldrop.py:237-240 | For two neighbouring sensors with the same id, only the first is removed. The intended removal drops both. |
| LdropProperties.RemoveSensorWithUniqueIds | ldrop/Ldrop.py:235-241 | With unique ids, removing a registered id removes exactly that sensor and keeps the others in order. The trace gains exactly one `disconnect` and one `sensorcount_changed`. |
| LdropProperties.RemoveUnknownSensorStillNotifies | ldrop/Ldrop.py:235-241 | An id nobody has leaves the list unchanged but still emits `sensorcount_changed`. |
| LdropProperties.RemovingNewSensorRestoresList | ldrop/Ldrop.py:172-178 | Creating a sensor with a fresh id and then removing that id restores the sensor list. |
| LdropProperties.CreatedSensorArrivesWired | ldrop/Ldrop.py:172-178 | If every registered sensor carries all seven relays, so does every sensor after `on_sensor_created`, including the one it appends. |
| LdropProperties.RegistrationKeepsSensorsWired | ldrop/Ldrop.py:172-178 | Creation, `add_sensor` and removal keep every registered sensor subscribed to all seven relays. |
| LdropProperties.CloseUnsubscribesEverySensor | ldrop/Ldrop.py:80-88 | After `close`, no sensor carries the controller's relays. |
| Ldrop.SensorAction | ldrop/Ldrop.py:256-260 | `action(action_id)` goes once to each sensor whose id matches and to no other. Nothing else changes. |
| LdropProperties.SensorActionReachesExactlyMatchingId | ldrop/Ldrop.py:256-260 | An action call reaches an id exactly when it is the requested id and a sensor with it is registered. |
| Ldrop.MessageToSensor | ldrop/Ldrop.py:126-135 | As written, the state and trace are unchanged: no sensor ever receives the message. |
| Ldrop.MessageToSensorByType | ldrop/Ldrop.py:126-135 | Intended behaviour: `on_message` goes once to each sensor of the type, in list order. |
| LdropProperties.MessageReachesExactlyTypedSensors | ldrop/Ldrop.py:126-135 | Under the intended routing, a sensor id receives the message exactly when a registered sensor with that id has the type. This includes zero recipients. |
| LdropProperties.MessageToSensorLosesTypedMessage | ldrop/Ldrop.py:134 | If a sensor of the type exists, the code as written sends nothing, while the intended routing reaches that sensor. |
| Ldrop.OnTag | ldrop/Ldrop.py:188-203 | Each sensor, in list order, receives exactly one copy equal to the tag. The sensor list and everything else are unchanged. |
| Ldrop.CallOnTag | ldrop/Ldrop.py:188-203 | Calling the one-parameter `on_tag` with any other number of arguments raises TypeError and changes nothing. With one tag it behaves as `on_tag`. |
| Ldrop.KeypressTag | ldrop/Ldrop.py:158-159 | The keypress tag has exactly the keys id, secondary_id and timestamp, holding the key name, "keypress" and the clock reading. |
| Ldrop.OnKeypress | ldrop/Ldrop.py:153-160 | A key in the list empties the list, emits `continue` and then raises TypeError, with nothing else changed. Any other key changes nothing. |
| Ldrop.OnKeypressIntended | ldrop/Ldrop.py:153-160 | Intended behaviour: after emptying the list and emitting `continue`, every sensor in order receives the keypress tag. Any other key changes nothing. |
| LdropProperties.KeypressDisarms | ldrop/Ldrop.py:153-157 | After a matching keypress the list is idle, so any following keypress changes nothing. |
| LdropProperties.KeypressTagNeverReachesSensors | ldrop/Ldrop.py:158-160 | As written, an armed keypress adds only `continue` to the trace and raises. The intended version gives the first sensor the keypress tag. |
| Ldrop.StartCollectingData | ldrop/Ldrop.py:262-266 | `start_recording(join(savedir, subdir), filename)` goes once to each sensor, in list order. Nothing else changes. |
| Ldrop.StopCollectingData | ldrop/Ldrop.py:275-280 | `stop_recording` goes once to each sensor, in list order. The callback, if not None, is queued after the existing tasks rather than run. Nothing else changes. |
| LdropProperties.StartThenStopCollecting | ldrop/Ldrop.py:262-280 | Start then stop gives every sensor's start in order, then every sensor's stop in order. The callback is only queued, after the last stop. |
| Ldrop.OnStartCollectingData | ldrop/Ldrop.py:180-182 | A sensor's start request starts recording on every sensor in order, under the composed path. |
| Ldrop.OnStopCollectingData | ldrop/Ldrop.py:184-186 | A sensor's stop request stops every sensor in order and queues no callback. |
| Ldrop.StopAndDisconnectEach | ldrop/Ldrop.py:83-86 | For each sensor in order, `stop_recording` comes immediately before `disconnect`. |
| Ldrop.Close | ldrop/Ldrop.py:80-88 | Each sensor is stopped and then disconnected, in list order, and loses its listeners through the base `disconnect`. The controller's own listeners are removed. |
| Ldrop.SetCallbacks | ldrop/Ldrop.py:243-249 | The four callback slots take the given values together. Nothing else changes. |
| Ldrop.SetParticipantId | ldrop/Ldrop.py:251-254 | The participant id is stored, then `participant_id_updated` is emitted. |
| Ldrop.Play | ldrop/Ldrop.py:209-213 | The play callback, if set, is queued and never run inline. The trace is unchanged. |
| Ldrop.Run | ldrop/Ldrop.py:215-220 | With no front end attached and a play callback set, exactly that callback is appended to the queue, as `play` does. Otherwise the queue is unchanged. The trace and everything else are unchanged. |
| LdropProperties.RunPlaysOnlyHeadless | ldrop/Ldrop.py:215-220 | Without a front end, `run` is `play`. With one, it does nothing before the loop. |
| Ldrop.Stop | ldrop/Ldrop.py:270-273 | The stop callback, if set, runs inline exactly once. Otherwise nothing happens. |
| Ldrop.ContinueExperiment | ldrop/Ldrop.py:100-103 | The continue callback, if set, runs inline exactly once. Otherwise nothing happens. |
| Ldrop.OnData | ldrop/Ldrop.py:141-144 | The data callback, if set, is queued with the data point and never run inline. |
| Ldrop.OnCloseController | ldrop/Ldrop.py:137-139 | `close` is queued for the main loop and not run inline. |
| Ldrop.OnLogMessage | ldrop/Ldrop.py:205-207 | A sensor's log message is re-emitted as `log_update`. Nothing else changes. |

## Left out

- The glib main loop is left out. `ml.run` and `ml.quit` are not modelled, and
  neither is the AttributeError `close` raises when `run` never created the loop.
  The loop is a foreign library.
- Tasks are not run. The model records what is queued with `idle_add`, in
  order, but not the loop that later runs the queued tasks.
- The plugin manager and its directory scan are left out. The registry is a
  map given to `AddSensor`. A factory's outcome is applied within the same
  call. A factory that calls back twice, or calls back after other
  operations, is not modelled.
- The GTK view is left out: `enable_gui`, `close_gui`, `on_query` and
  `show_message_box`. Front ends are only a count.
- `get_sensors`, `get_sensor_plugins` and `get_participant_id` are plain reads
  of the state or the plugin manager and are not modelled.
- `on_experiment_completed` is left out. It refers to an attribute the
  controller never defines.
- Environment and filesystem work is left out: `os.environ["HOME"]`,
  `utils.dircheck`, and the `sys.path` change. The home directory is a parameter.
- `time.time()` and `random.randint` are not modelled. Their results are
  parameters.
- The base `start_recording`, `stop_recording` and `tag` are print stubs. The
  base `start_recording` even takes four parameters where the controller
  passes two. Calls on sensors are recorded in the trace only. What a plugin
  does with them, or any event it emits from inside them, is not modelled.
- `print`, `__del__` and the unused `self.tags` list are left out.
- Ldrop.Close: every sensor is taken to use the base `disconnect`, which empties
  its listener table. A plugin that overrides `disconnect`, or does not inherit
  from `Sensor` at all, may keep its listeners; the model does not cover such
  plugins, so `CloseUnsubscribesEverySensor` holds only for sensors that use
  the base behaviour.
- Ldrop.RemovePass: `list.remove` deletes the first element equal to the
  visited sensor. The model deletes the visited element itself. The two differ
  only when one sensor object is registered twice.
- Ldrop.OnSensorError: the event emitter raises when `error` is emitted with no
  listener. The model emits in every case, because the emitter's internals are
  not modelled.
- Subscriptions.RemoveModel: the event emitter raises when asked to remove a
  listener it does not hold. The model leaves the table unchanged instead.
- Ldrop.OnTag: `tag.copy()` is a shallow copy. The model's tags are immutable
  values, so copies that share nested objects are not modelled.
- How keys get into the keyboard contingency list is not modelled. Outside
  code assigns the list directly; only the armed-to-idle transition is
  modelled.

## Findings

| source | as written | input that shows it | evidently intended | confidence | as-written member | corrected member |
|---|---|---|---|---|---|---|
| ldrop/Ldrop.py:237-240 | The loop removes sensors from the list it is iterating, so the element after a removed one is never inspected. | Two neighbouring sensors whose ids are both "sensor7", then `remove_sensor("sensor7")`: the second one stays registered. | Every sensor with the id is disconnected and removed. | high; not executed | Ldrop.RemoveSensor (shown by LdropProperties.RemoveSensorSkipsAdjacentDuplicate) | Ldrop.RemoveSensorAll |
| ldrop/Ldrop.py:134 | The guard compares the bound method `sensor.get_type` with the type string. A method never equals a string. | A registered sensor of type "eyetracker", then `message_to_sensor("eyetracker", msg)`: no sensor gets `on_message`. | The guard compares `sensor.get_type()`, so sensors of that type get the message. | high; not executed | Ldrop.MessageToSensor (shown by LdropProperties.MessageToSensorLosesTypedMessage) | Ldrop.MessageToSensorByType |
| ldrop/Ldrop.py:160 | `on_tag("tag", tag)` passes two arguments to a handler that takes one. | Contingency list ["space"], one registered sensor, keypress "space": TypeError after `continue`, and the sensor gets no tag. | `on_tag(tag)`, so every sensor gets the keypress tag. | high; not executed | Ldrop.OnKeypress (shown by LdropProperties.KeypressTagNeverReachesSensors) | Ldrop.OnKeypressIntended |

=== FILE: basics.dfy ===
/** Shared vocabulary for the controller model. */
module Basics {

  /** A value that may be Python's `None`. */
  datatype Option<T> = None | Some(value: T)
}

=== FILE: decimal.dfy ===
/**
 * Decimal text of non-negative integers as Python's `str` renders them, and
 * the parser that inverts it. Sensor identifiers are built from this text.
 */
module Decimal {
  import opened Basics

  predicate IsDigit(ch: char) {
    '0' <= ch <= '9'
  }

  predicate AllDigits(s: string) {
    forall i | 0 <= i < |s| :: IsDigit(s[i])
  }

  function DigitValue(ch: char): (d: nat)
    requires IsDigit(ch)
    ensures d < 10
  {
    ch as int - '0' as int
  }

  function DigitChar(d: nat): (ch: char)
    requires d < 10
    ensures IsDigit(ch) && DigitValue(ch) == d
  {
    ('0' as int + d) as char
  }

  /** `str(n)`: digits only, most significant first, no leading zero. */
  function ToDecimal(n: nat): (s: string)
    ensures |s| >= 1 && AllDigits(s)
    ensures s[0] == '0' <==> n == 0
  {
    if n < 10 then [DigitChar(n)]
    else ToDecimal(n / 10) + [DigitChar(n % 10)]
  }

  /** The number a digit string denotes. */
  function Value(s: string): nat
    requires AllDigits(s)
  {
    if |s| == 0 then 0 else Value(s[..|s| - 1]) * 10 + DigitValue(s[|s| - 1])
  }

  /** Reads back a canonical decimal text; `None` for any text `str` cannot produce. */
  function Parse(s: string): Option<nat> {
    if |s| >= 1 && AllDigits(s) && (|s| == 1 || s[0] != '0') then Some(Value(s)) else None
  }

  lemma {:induction false} ValueOfToDecimal(n: nat)
    ensures Value(ToDecimal(n)) == n
  {
    if n >= 10 {
      var s := ToDecimal(n);
      assert s[..|s| - 1] == ToDecimal(n / 10);
      ValueOfToDecimal(n / 10);
    }
  }

  /** Parsing the rendering of `n` gives `n` back. */
  lemma ParseToDecimal(n: nat)
    ensures Parse(ToDecimal(n)) == Some(n)
  {
    ValueOfToDecimal(n);
  }

  lemma {:induction false} ZeroValueStartsWithZero(s: string)
    requires |s| >= 1 && AllDigits(s) && Value(s) == 0
    ensures s[0] == '0'
  {
    if |s| > 1 {
      var p := s[..|s| - 1];
      assert p[0] == s[0];
      ZeroValueStartsWithZero(p);
    }
  }

  /** Every text the parser accepts is the rendering of the number it yields. */
  lemma {:induction false} ToDecimalOfParse(s: string, n: nat)
    requires Parse(s) == Some(n)
    ensures s == ToDecimal(n)
    decreases |s|
  {
    if |s| == 1 {
      assert DigitChar(n) == s[0];
    } else {
      var p := s[..|s| - 1];
      var last := s[|s| - 1];
      assert p[0] == s[0];
      assert AllDigits(p);
      if Value(p) == 0 {
        ZeroValueStartsWithZero(p);
      }
      assert Parse(p) == Some(Value(p));
      ToDecimalOfParse(p, Value(p));
      assert n / 10 == Value(p) && n % 10 == DigitValue(last);
      assert DigitChar(DigitValue(last)) == last;
      assert s == p + [last];
    }
  }

  function Pow10(k: nat): (p: nat)
    ensures p >= 1
  {
    if k == 0 then 1 else 10 * Pow10(k - 1)
  }

  /** A number below 10^k renders in at most k digits. */
  lemma {:induction false} WidthBelowPower(n: nat, k: nat)
    requires k >= 1 && n < Pow10(k)
    ensures |ToDecimal(n)| <= k
  {
    if n >= 10 {
      assert n / 10 < Pow10(k - 1);
      WidthBelowPower(n / 10, k - 1);
    }
  }
}

=== FILE: ldrop.dfy ===
/**
 * The sensor-orchestration controller. Its state is the ordered list of
 * registered sensors, the keyboard contingency list, the experiment
 * callbacks, the queue of tasks handed to the main loop's `idle_add`, and a
 * trace of every effect an operation has on the outside world: calls made on
 * sensors, notifications emitted to the controller's own listeners, plugin
 * factory calls and callbacks run inline. Each operation is a transition from
 * one such state to the next.
 */
module Ldrop {
  import opened Basics
  import opened Subscriptions
  import opened Sensors
  import Paths
  import Seqs

  /** A value in a tag dictionary: text, or a clock reading in seconds. */
  datatype TagField = Text(text: string) | Clock(seconds: real)

  /** A tag dictionary (`id`, `secondary_id`, `timestamp`, `misc`, ...). */
  type Tag = map<string, TagField>

  /** An experiment-side callable, known only by identity. */
  datatype Callback = Callback(name: string)

  datatype Callbacks = Callbacks(
    play: Option<Callback>,
    stop: Option<Callback>,
    cont: Option<Callback>,
    data: Option<Callback>)

  /** A call the controller makes on a sensor. */
  datatype SensorCall =
    | StartRecording(path: string, filename: string)
    | StopRecording
    | DeliverTag(tag: Tag)
    | Action(actionId: string)
    | Disconnect
    | Message(msg: string)

  /** An event the controller emits to its own listeners (the front ends). */
  datatype Notification =
    | SensorcountChanged
    | Error(message: string)
    | Continue
    | LogUpdate(logMessage: string)
    | ParticipantIdUpdated

  datatype Effect =
    | Call(sensorId: string, call: SensorCall)
    | Emit(notification: Notification)
    | GetSensor(plugin: string, pluginRoot: string)
    | Invoke(callback: Callback)

  /** A task queued with `idle_add`, to run on a later main-loop iteration. */
  datatype Task =
    | Deferred(callback: Callback)
    | DeferredWith(callback: Callback, argument: string)
    | DeferredClose

  /** What a plugin's `get_sensor` factory ends up doing with its two callbacks. */
  datatype FactoryOutcome = Creates(sensor: Sensor) | Fails(message: string) | Pending

  /** The plugin manager's lookup, from plugin name to its factory's behaviour. */
  type Registry = map<string, FactoryOutcome>

  datatype Controller = Controller(
    rootdir: string,
    savedir: string,
    sensors: seq<Sensor>,
    contingency: seq<string>,
    frontEnds: nat,
    callbacks: Callbacks,
    participantId: string,
    observers: seq<Listener>,
    tasks: seq<Task>,
    trace: seq<Effect>)

  /** How a Python call ended. */
  datatype Outcome = Returned | Raised(exception: string)

  datatype Step = Step(state: Controller, outcome: Outcome)

  /** An argument passed to a handler: a plain string or a tag dictionary. */
  datatype Argument = Str(s: string) | Dict(tag: Tag)

  // ---------------------------------------------------------------------
  // Trace vocabulary

  /** `later` is `earlier` with effects appended. */
  ghost predicate Extends(earlier: seq<Effect>, later: seq<Effect>) {
    |earlier| <= |later| && later[..|earlier|] == earlier
  }

  /** The effects appended to `earlier`. */
  ghost function Since(earlier: seq<Effect>, later: seq<Effect>): seq<Effect>
    requires Extends(earlier, later)
  {
    later[|earlier|..]
  }

  /** Two extensions in a row: what the second adds follows what the first added. */
  lemma SinceChains(a: seq<Effect>, b: seq<Effect>, e: seq<Effect>)
    requires Extends(a, b) && Extends(b, e)
    ensures Extends(a, e)
    ensures Since(a, e)[..|b| - |a|] == Since(a, b)
    ensures Since(a, e)[|b| - |a|..] == Since(b, e)
  {
    assert e[..|a|] == e[..|b|][..|a|];
  }

  /** `effects` is one `call` per sensor of `ss`, in list order. */
  ghost predicate FansOut(effects: seq<Effect>, ss: seq<Sensor>, call: SensorCall) {
    |effects| == |ss| && forall i | 0 <= i < |ss| :: effects[i] == Call(ss[i].sensorId, call)
  }

  /** The effects of `for sensor in ss: sensor.<call>`. */
  function CallEach(ss: seq<Sensor>, call: SensorCall): (effects: seq<Effect>)
    ensures FansOut(effects, ss, call)
  {
    if ss == [] then []
    else [Call(ss[0].sensorId, call)] + CallEach(ss[1..], call)
  }

  // ---------------------------------------------------------------------
  // Filters over the sensor list

  function WithId(ss: seq<Sensor>, id: string): (r: seq<Sensor>)
    ensures |r| <= |ss|
    ensures forall s :: s in r <==> s in ss && s.sensorId == id
  {
    if ss == [] then []
    else (if ss[0].sensorId == id then [ss[0]] else []) + WithId(ss[1..], id)
  }

  function WithoutId(ss: seq<Sensor>, id: string): (r: seq<Sensor>)
    ensures |r| <= |ss|
    ensures forall s :: s in r <==> s in ss && s.sensorId != id
  {
    if ss == [] then []
    else (if ss[0].sensorId != id then [ss[0]] else []) + WithoutId(ss[1..], id)
  }

  function OfType(ss: seq<Sensor>, sensortype: string): (r: seq<Sensor>)
    ensures |r| <= |ss|
    ensures forall s :: s in r <==> s in ss && s.sensorType == Some(sensortype)
  {
    if ss == [] then []
    else (if ss[0].sensorType == Some(sensortype) then [ss[0]] else []) + OfType(ss[1..], sensortype)
  }

  // ---------------------------------------------------------------------
  // Construction

  /**
   * `__init__` with the home directory passed in: data lives under
   * `$HOME/Documents/ldrop_data`, recordings under its `recordings`
   * sub-directory; nothing is registered, armed, queued or traced.
   */
  function NewController(home: string): (c: Controller)
    ensures c.rootdir == Paths.Join(Paths.Join(home, "Documents"), "ldrop_data")
    ensures c.savedir == Paths.Join(c.rootdir, "recordings")
    ensures c.sensors == [] && c.contingency == [] && c.frontEnds == 0
    ensures c.callbacks == Callbacks(None, None, None, None) && c.participantId == ""
    ensures c.observers == [] && c.tasks == [] && c.trace == []
  {
    var root := Paths.Join(Paths.Join(home, "Documents"), "ldrop_data");
    Controller(root, Paths.Join(root, "recordings"), [], [], 0, Callbacks(None, None, None, None), "", [], [], [])
  }

  // ---------------------------------------------------------------------
  // Registration

  /** `on_sensor_created`: append the sensor, emit `sensorcount_changed`, then `add_model` it. */
  function OnSensorCreated(c: Controller, handle: Sensor): (r: Controller)
    ensures |r.sensors| == |c.sensors| + 1 && r.sensors[..|c.sensors|] == c.sensors
    ensures r.sensors[|c.sensors|].(listeners := handle.listeners) == handle
    ensures |r.sensors[|c.sensors|].listeners| == |handle.listeners| + 7
    ensures r.sensors[|c.sensors|].listeners[..|handle.listeners|] == handle.listeners
    ensures r.sensors[|c.sensors|].listeners[|handle.listeners|..] == ControllerSubscriptions
    ensures r.trace == c.trace + [Emit(SensorcountChanged)]
    ensures r.(sensors := c.sensors, trace := c.trace) == c
  {
    var appended := c.(sensors := c.sensors + [handle], trace := c.trace + [Emit(SensorcountChanged)]);
    // add_model subscribes on the object that is already the list's last element
    appended.(sensors := c.sensors + [handle.(listeners := AddModel(handle.listeners))])
  }

  /** `on_sensor_error`: emit `error` with the message; the sensor list is untouched. */
  function OnSensorError(c: Controller, msg: string): (r: Controller)
    ensures r.trace == c.trace + [Emit(Error(msg))]
    ensures r.(trace := c.trace) == c
  {
    c.(trace := c.trace + [Emit(Error(msg))])
  }

  /**
   * `add_sensor`: an unknown plugin name only prints a notice; a known one
   * calls the plugin's factory with the data root and the two callbacks, and
   * the factory then reports creation, failure, or nothing yet.
   */
  function AddSensor(c: Controller, name: string, registry: Registry): (r: Controller)
    ensures name !in registry ==> r == c
    ensures name in registry ==> Extends(c.trace, r.trace) && |r.trace| > |c.trace|
    ensures name in registry ==> r.trace[|c.trace|] == GetSensor(name, c.rootdir)
    ensures name in registry && registry[name].Creates? ==>
      r == OnSensorCreated(c.(trace := c.trace + [GetSensor(name, c.rootdir)]), registry[name].sensor)
    ensures name in registry && registry[name].Fails? ==>
      r == c.(trace := c.trace + [GetSensor(name, c.rootdir), Emit(Error(registry[name].message))])
    ensures name in registry && registry[name].Pending? ==>
      r == c.(trace := c.trace + [GetSensor(name, c.rootdir)])
  {
    if name !in registry then c
    else
      var called := c.(trace := c.trace + [GetSensor(name, c.rootdir)]);
      assert Extends(c.trace, called.trace) && called.trace[|c.trace|] == GetSensor(name, c.rootdir);
      match registry[name]
      case Creates(s) =>
        assert called.trace + [Emit(SensorcountChanged)] == c.trace + [GetSensor(name, c.rootdir), Emit(SensorcountChanged)];
        OnSensorCreated(called, s)
      case Fails(msg) =>
        assert called.trace + [Emit(Error(msg))] == c.trace + [GetSensor(name, c.rootdir), Emit(Error(msg))];
        OnSensorError(called, msg)
      case Pending => called
  }

  /** What the `remove_sensor` loop leaves in the list and what it disconnects. */
  datatype Removal = Removal(kept: seq<Sensor>, dropped: seq<Sensor>)

  /**
   * The loop of `remove_sensor`, which removes the visited sensor from the
   * very list it iterates. The list iterator's index then points one past the
   * element that slid into the removed one's place, so the sensor right after
   * a removed one is never inspected and stays, whatever its id.
   */
  function RemovePass(ss: seq<Sensor>, id: string): (r: Removal)
    ensures forall s | s in r.dropped :: s.sensorId == id
    decreases |ss|
  {
    if ss == [] then Removal([], [])
    else if ss[0].sensorId != id then
      var rest := RemovePass(ss[1..], id);
      Removal([ss[0]] + rest.kept, rest.dropped)
    else if |ss| == 1 then Removal([], ss)
    else
      var rest := RemovePass(ss[2..], id);
      Removal([ss[1]] + rest.kept, [ss[0]] + rest.dropped)
  }

  /** The loop loses no sensor and invents none: kept and dropped together are the original list. */
  lemma {:induction false} RemovePassPartitions(ss: seq<Sensor>, id: string)
    ensures multiset(RemovePass(ss, id).kept) + multiset(RemovePass(ss, id).dropped) == multiset(ss)
    decreases |ss|
  {
    if ss == [] {
    } else if ss[0].sensorId != id {
      var rest := RemovePass(ss[1..], id);
      RemovePassPartitions(ss[1..], id);
      assert RemovePass(ss, id) == Removal([ss[0]] + rest.kept, rest.dropped);
      assert multiset(ss) == multiset{ss[0]} + multiset(ss[1..]) by {
        Seqs.HeadTail(ss);
      }
    } else if |ss| > 1 {
      var rest := RemovePass(ss[2..], id);
      RemovePassPartitions(ss[2..], id);
      assert RemovePass(ss, id) == Removal([ss[1]] + rest.kept, [ss[0]] + rest.dropped);
      assert multiset(ss) == multiset{ss[0]} + multiset(ss[1..]) by {
        Seqs.HeadTail(ss);
      }
      assert multiset(ss[1..]) == multiset{ss[1]} + multiset(ss[2..]) by {
        Seqs.HeadTail(ss[1..]);
        assert ss[1..][1..] == ss[2..];
      }
    }
  }

  /**
   * `remove_sensor` as written: disconnects and drops the sensors the loop
   * visits with a matching id, then always emits `sensorcount_changed`.
   */
  function RemoveSensor(c: Controller, id: string): (r: Controller)
    ensures var pass := RemovePass(c.sensors, id);
      && r.sensors == pass.kept
      && Extends(c.trace, r.trace)
      && |Since(c.trace, r.trace)| == |pass.dropped| + 1
      && FansOut(Since(c.trace, r.trace)[..|pass.dropped|], pass.dropped, Disconnect)
    ensures r.trace[|r.trace| - 1] == Emit(SensorcountChanged)
    ensures r.(sensors := c.sensors, trace := c.trace) == c
  {
    var pass := RemovePass(c.sensors, id);
    var disconnects := CallEach(pass.dropped, Disconnect);
    var r := c.(sensors := pass.kept, trace := c.trace + disconnects + [Emit(SensorcountChanged)]);
    assert Since(c.trace, r.trace)[..|pass.dropped|] == disconnects;
    r
  }

  /**
   * `remove_sensor` as evidently intended: every sensor with the id is
   * disconnected and dropped, the others keep their order.
   */
  function RemoveSensorAll(c: Controller, id: string): (r: Controller)
    ensures forall s :: s in r.sensors <==> s in c.sensors && s.sensorId != id
    ensures r.sensors == WithoutId(c.sensors, id)
    ensures Extends(c.trace, r.trace) && |Since(c.trace, r.trace)| == |WithId(c.sensors, id)| + 1
    ensures FansOut(Since(c.trace, r.trace)[..|WithId(c.sensors, id)|], WithId(c.sensors, id), Disconnect)
    ensures r.trace[|r.trace| - 1] == Emit(SensorcountChanged)
    ensures r.(sensors := c.sensors, trace := c.trace) == c
  {
    var disconnects := CallEach(WithId(c.sensors, id), Disconnect);
    var r := c.(sensors := WithoutId(c.sensors, id), trace := c.trace + disconnects + [Emit(SensorcountChanged)]);
    assert Since(c.trace, r.trace)[..|WithId(c.sensors, id)|] == disconnects;
    r
  }

  // ---------------------------------------------------------------------
  // Routing

  /** `sensor_action`: `action(action_id)` on every sensor whose id matches. */
  function SensorAction(c: Controller, id: string, actionId: string): (r: Controller)
    ensures Extends(c.trace, r.trace)
    ensures |Since(c.trace, r.trace)| == |WithId(c.sensors, id)|
    ensures forall e | e in Since(c.trace, r.trace) :: e == Call(id, Action(actionId))
    ensures r.(trace := c.trace) == c
  {
    c.(trace := c.trace + CallEach(WithId(c.sensors, id), Action(actionId)))
  }

  /**
   * The guard of `message_to_sensor` as written: it compares the bound
   * method `sensor.get_type` itself, not its result, with a string, and a
   * method object never equals a string.
   */
  predicate BoundMethodEqualsString(s: Sensor, sensortype: string) {
    false
  }

  function MessageEach(ss: seq<Sensor>, sensortype: string, msg: string): (effects: seq<Effect>)
    ensures effects == []
  {
    if ss == [] then []
    else
      var head := ss[0];
      var delivered := if BoundMethodEqualsString(head, sensortype) then [Call(head.sensorId, Message(msg))] else [];
      delivered + MessageEach(ss[1..], sensortype, msg)
  }

  /** `message_to_sensor` as written: no sensor ever receives the message. */
  function MessageToSensor(c: Controller, sensortype: string, msg: string): (r: Controller)
    ensures r == c
  {
    c.(trace := c.trace + MessageEach(c.sensors, sensortype, msg))
  }

  /** `message_to_sensor` as evidently intended: `on_message` on every sensor of the type. */
  function MessageToSensorByType(c: Controller, sensortype: string, msg: string): (r: Controller)
    ensures Extends(c.trace, r.trace)
    ensures FansOut(Since(c.trace, r.trace), OfType(c.sensors, sensortype), Message(msg))
    ensures r.(trace := c.trace) == c
  {
    c.(trace := c.trace + CallEach(OfType(c.sensors, sensortype), Message(msg)))
  }

  /** `on_tag`: every sensor, in list order, receives its own copy of the tag. */
  function OnTag(c: Controller, tag: Tag): (r: Controller)
    ensures Extends(c.trace, r.trace)
    ensures FansOut(Since(c.trace, r.trace), c.sensors, DeliverTag(tag))
    ensures r.(trace := c.trace) == c
  {
    // tag.copy() is equal to tag; each sensor receives a distinct dictionary
    c.(trace := c.trace + CallEach(c.sensors, DeliverTag(tag)))
  }

  /**
   * Calling the one-parameter handler `on_tag` with a positional argument
   * list: any other arity raises TypeError before the body runs, and a
   * string argument raises AttributeError at the first `.copy()`.
   */
  function CallOnTag(c: Controller, args: seq<Argument>): (r: Step)
    ensures |args| != 1 ==> r == Step(c, Raised("TypeError"))
    ensures |args| == 1 && args[0].Dict? ==> r.outcome == Returned && r.state == OnTag(c, args[0].tag)
  {
    if |args| != 1 then Step(c, Raised("TypeError"))
    else match args[0]
      case Dict(tag) => Step(OnTag(c, tag), Returned)
      case Str(_) => if c.sensors == [] then Step(c, Returned) else Step(c, Raised("AttributeError"))
  }

  /** The tag a matching keypress builds. */
  function KeypressTag(key: string, now: real): (t: Tag)
    ensures t.Keys == {"id", "secondary_id", "timestamp"}
    ensures t["id"] == Text(key) && t["secondary_id"] == Text("keypress") && t["timestamp"] == Clock(now)
  {
    map["id" := Text(key), "secondary_id" := Text("keypress"), "timestamp" := Clock(now)]
  }

  /**
   * `on_keypress` as written, with the clock reading passed in. A key in the
   * contingency list empties the list and emits `continue`; it then calls
   * `on_tag("tag", tag)`, which takes one argument, so the call raises and
   * no sensor receives the tag. Any other key changes nothing.
   */
  function OnKeypress(c: Controller, key: string, now: real): (r: Step)
    ensures key !in c.contingency ==> r == Step(c, Returned)
    ensures key in c.contingency ==>
      && r.state.contingency == []
      && r.state.trace == c.trace + [Emit(Continue)]
      && r.state.(contingency := c.contingency, trace := c.trace) == c
      && r.outcome == Raised("TypeError")
  {
    if key in c.contingency then
      var armed := c.(contingency := [], trace := c.trace + [Emit(Continue)]);
      CallOnTag(armed, [Str("tag"), Dict(KeypressTag(key, now))])
    else Step(c, Returned)
  }

  /** `on_keypress` as evidently intended: the keypress tag goes to `on_tag(tag)`. */
  function OnKeypressIntended(c: Controller, key: string, now: real): (r: Step)
    ensures r.outcome == Returned
    ensures key !in c.contingency ==> r.state == c
    ensures key in c.contingency ==>
      && r.state.contingency == []
      && Extends(c.trace + [Emit(Continue)], r.state.trace)
      && FansOut(Since(c.trace + [Emit(Continue)], r.state.trace), c.sensors, DeliverTag(KeypressTag(key, now)))
      && r.state.(contingency := c.contingency, trace := c.trace) == c
  {
    if key in c.contingency then
      var armed := c.(contingency := [], trace := c.trace + [Emit(Continue)]);
      CallOnTag(armed, [Dict(KeypressTag(key, now))])
    else Step(c, Returned)
  }

  // ---------------------------------------------------------------------
  // Data collection

  /** `start_collecting_data`: `start_recording(savedir/subdir, filename)` on every sensor in order. */
  function StartCollectingData(c: Controller, subdir: string, filename: string): (r: Controller)
    ensures Extends(c.trace, r.trace)
    ensures FansOut(Since(c.trace, r.trace), c.sensors, StartRecording(Paths.Join(c.savedir, subdir), filename))
    ensures r.(trace := c.trace) == c
  {
    var savepath := Paths.Join(c.savedir, subdir);
    c.(trace := c.trace + CallEach(c.sensors, StartRecording(savepath, filename)))
  }

  /**
   * `stop_collecting_data`: `stop_recording` on every sensor in order, then
   * the callback, if any, is queued for the main loop and not run here.
   */
  function StopCollectingData(c: Controller, callback: Option<Callback>): (r: Controller)
    ensures Extends(c.trace, r.trace)
    ensures FansOut(Since(c.trace, r.trace), c.sensors, StopRecording)
    ensures callback.None? ==> r.tasks == c.tasks
    ensures callback.Some? ==> r.tasks == c.tasks + [Deferred(callback.value)]
    ensures r.(trace := c.trace, tasks := c.tasks) == c
  {
    var stopped := c.(trace := c.trace + CallEach(c.sensors, StopRecording));
    if callback.Some? then stopped.(tasks := c.tasks + [Deferred(callback.value)]) else stopped
  }

  /** `on_start_collecting_data`: a sensor's request to start collection everywhere. */
  function OnStartCollectingData(c: Controller, subdir: string, filename: string): (r: Controller)
    ensures Extends(c.trace, r.trace)
    ensures FansOut(Since(c.trace, r.trace), c.sensors, StartRecording(Paths.Join(c.savedir, subdir), filename))
    ensures r.(trace := c.trace) == c
  {
    StartCollectingData(c, subdir, filename)
  }

  /** `on_stop_collecting_data`: a sensor's request to stop collection everywhere, with no callback. */
  function OnStopCollectingData(c: Controller): (r: Controller)
    ensures Extends(c.trace, r.trace)
    ensures FansOut(Since(c.trace, r.trace), c.sensors, StopRecording)
    ensures r.(trace := c.trace) == c
  {
    StopCollectingData(c, None)
  }

  /** The effects of `for sensor in ss: sensor.stop_recording(); sensor.disconnect()`. */
  function StopAndDisconnectEach(ss: seq<Sensor>): (effects: seq<Effect>)
    ensures |effects| == 2 * |ss|
    ensures forall i | 0 <= i < |ss| ::
      effects[2 * i] == Call(ss[i].sensorId, StopRecording) && effects[2 * i + 1] == Call(ss[i].sensorId, Disconnect)
  {
    if ss == [] then []
    else [Call(ss[0].sensorId, StopRecording), Call(ss[0].sensorId, Disconnect)] + StopAndDisconnectEach(ss[1..])
  }

  /**
   * `close`, up to stopping the main loop: each sensor in turn is stopped
   * and then disconnected, and the controller's own listeners are removed.
   */
  function Close(c: Controller): (r: Controller)
    ensures |r.sensors| == |c.sensors|
    ensures forall i | 0 <= i < |c.sensors| :: r.sensors[i] == DisconnectSensor(c.sensors[i]).sensor
    ensures Extends(c.trace, r.trace) && |Since(c.trace, r.trace)| == 2 * |c.sensors|
    ensures forall i | 0 <= i < |c.sensors| ::
      && Since(c.trace, r.trace)[2 * i] == Call(c.sensors[i].sensorId, StopRecording)
      && Since(c.trace, r.trace)[2 * i + 1] == Call(c.sensors[i].sensorId, Disconnect)
    ensures r.observers == []
    ensures r.(sensors := c.sensors, trace := c.trace, observers := c.observers) == c
  {
    var disconnected := seq(|c.sensors|, i requires 0 <= i < |c.sensors| => DisconnectSensor(c.sensors[i]).sensor);
    c.(sensors := disconnected, trace := c.trace + StopAndDisconnectEach(c.sensors), observers := [])
  }

  // ---------------------------------------------------------------------
  // Callback relays

  /** `set_callbacks`: the four experiment slots, replaced together. */
  function SetCallbacks(c: Controller, play: Option<Callback>, stop: Option<Callback>,
                        cont: Option<Callback>, data: Option<Callback>): (r: Controller)
    ensures r.callbacks.play == play && r.callbacks.stop == stop
    ensures r.callbacks.cont == cont && r.callbacks.data == data
    ensures r.(callbacks := c.callbacks) == c
  {
    c.(callbacks := Callbacks(play, stop, cont, data))
  }

  /** `set_participant_id`: store the id, then emit `participant_id_updated`. */
  function SetParticipantId(c: Controller, pid: string): (r: Controller)
    ensures r.participantId == pid
    ensures r.trace == c.trace + [Emit(ParticipantIdUpdated)]
    ensures r.(participantId := c.participantId, trace := c.trace) == c
  {
    c.(participantId := pid, trace := c.trace + [Emit(ParticipantIdUpdated)])
  }

  /** `play`: the play callback is queued for the main loop, never run inline. */
  function Play(c: Controller): (r: Controller)
    ensures r.trace == c.trace
    ensures c.callbacks.play.None? ==> r == c
    ensures c.callbacks.play.Some? ==> r.tasks == c.tasks + [Deferred(c.callbacks.play.value)]
    ensures r.(tasks := c.tasks) == c
  {
    if c.callbacks.play.Some? then c.(tasks := c.tasks + [Deferred(c.callbacks.play.value)]) else c
  }

  /**
   * `run`, up to entering the main loop: with no front end attached and a
   * play callback set, the experiment starts by itself through `play`.
   */
  function Run(c: Controller): (r: Controller)
    ensures r.trace == c.trace
    ensures r.tasks == c.tasks + (if c.frontEnds == 0 && c.callbacks.play.Some? then [Deferred(c.callbacks.play.value)] else [])
    ensures r.(tasks := c.tasks) == c
  {
    if c.frontEnds == 0 && c.callbacks.play.Some? then Play(c) else c
  }

  /** `stop`: the stop callback, if set, runs inline. */
  function Stop(c: Controller): (r: Controller)
    ensures c.callbacks.stop.None? ==> r == c
    ensures c.callbacks.stop.Some? ==> r.trace == c.trace + [Invoke(c.callbacks.stop.value)]
    ensures r.(trace := c.trace) == c
  {
    if c.callbacks.stop.Some? then c.(trace := c.trace + [Invoke(c.callbacks.stop.value)]) else c
  }

  /** `continue_experiment`: the continue callback, if set, runs inline. */
  function ContinueExperiment(c: Controller): (r: Controller)
    ensures c.callbacks.cont.None? ==> r == c
    ensures c.callbacks.cont.Some? ==> r.trace == c.trace + [Invoke(c.callbacks.cont.value)]
    ensures r.(trace := c.trace) == c
  {
    if c.callbacks.cont.Some? then c.(trace := c.trace + [Invoke(c.callbacks.cont.value)]) else c
  }

  /** `on_data`: the data callback, if set, is queued with the data point, never run inline. */
  function OnData(c: Controller, dp: string): (r: Controller)
    ensures r.trace == c.trace
    ensures c.callbacks.data.None? ==> r == c
    ensures c.callbacks.data.Some? ==> r.tasks == c.tasks + [DeferredWith(c.callbacks.data.value, dp)]
    ensures r.(tasks := c.tasks) == c
  {
    if c.callbacks.data.Some? then c.(tasks := c.tasks + [DeferredWith(c.callbacks.data.value, dp)]) else c
  }

  /** `on_close_controller`: `close` is queued for the main loop, never run inline. */
  function OnCloseController(c: Controller): (r: Controller)
    ensures r.trace == c.trace && r.sensors == c.sensors
    ensures r.tasks == c.tasks + [DeferredClose]
    ensures r.(tasks := c.tasks) == c
  {
    c.(tasks := c.tasks + [DeferredClose])
  }

  /** `on_log_message`: re-emitted to the front ends as `log_update`. */
  function OnLogMessage(c: Controller, logmsg: string): (r: Controller)
    ensures r.trace == c.trace + [Emit(LogUpdate(logmsg))]
    ensures r.(trace := c.trace) == c
  {
    c.(trace := c.trace + [Emit(LogUpdate(logmsg))])
  }
}

=== FILE: ldrop_properties.dfy ===
/**
 * Properties of the controller that relate several operations, or an
 * operation to an independent description of what it should do.
 */
module LdropProperties {
  import opened Basics
  import opened Subscriptions
  import opened Sensors
  import opened Ldrop
  import Paths
  import Seqs

  // ---------------------------------------------------------------------
  // Registration and subscription go together

  /** The sensor carries every one of the controller's seven relays. */
  ghost predicate Subscribed(s: Sensor) {
    forall i | 0 <= i < |ControllerSubscriptions| :: ControllerSubscriptions[i] in s.listeners
  }

  /** Every registered sensor is subscribed to. */
  ghost predicate Wired(c: Controller) {
    forall s | s in c.sensors :: Subscribed(s)
  }

  lemma {:induction false} KeptSensorsWereListed(ss: seq<Sensor>, id: string)
    ensures forall s | s in RemovePass(ss, id).kept :: s in ss
  {
    RemovePassPartitions(ss, id);
    var m := multiset(RemovePass(ss, id).kept);
    forall s | s in RemovePass(ss, id).kept
      ensures s in ss
    {
      assert s in m;
      assert s in multiset(ss);
    }
  }

  /** The sensor `on_sensor_created` appends arrives subscribed. */
  lemma CreatedSensorArrivesWired(c: Controller, handle: Sensor)
    requires Wired(c)
    ensures Wired(OnSensorCreated(c, handle))
  {
    var r := OnSensorCreated(c, handle);
    var last := r.sensors[|c.sensors|];
    forall i | 0 <= i < |ControllerSubscriptions|
      ensures ControllerSubscriptions[i] in last.listeners
    {
      assert last.listeners[|handle.listeners| + i] == ControllerSubscriptions[i];
    }
    assert r.sensors == c.sensors + [last];
  }

  /**
   * Registering, failing to register and removing sensors all keep every
   * registered sensor subscribed: a sensor is never in the list without
   * the controller's relays on it.
   */
  lemma RegistrationKeepsSensorsWired(c: Controller, handle: Sensor, name: string, registry: Registry, id: string)
    requires Wired(c)
    ensures Wired(OnSensorCreated(c, handle))
    ensures Wired(AddSensor(c, name, registry))
    ensures Wired(RemoveSensor(c, id))
    ensures Wired(RemoveSensorAll(c, id))
  {
    CreatedSensorArrivesWired(c, handle);
    var called := c.(trace := c.trace + [GetSensor(name, c.rootdir)]);
    assert Wired(called);
    if name in registry && registry[name].Creates? {
      CreatedSensorArrivesWired(called, registry[name].sensor);
    }
    KeptSensorsWereListed(c.sensors, id);
  }

  /** After `close`, no sensor is subscribed to any more. */
  lemma CloseUnsubscribesEverySensor(c: Controller)
    ensures forall s | s in Close(c).sensors :: !Subscribed(s)
  {
    forall s | s in Close(c).sensors
      ensures !Subscribed(s)
    {
      var i :| 0 <= i < |Close(c).sensors| && Close(c).sensors[i] == s;
      assert s.listeners == [];
      assert ControllerSubscriptions[0] !in s.listeners;
    }
  }

  // ---------------------------------------------------------------------
  // remove_sensor

  /** No two neighbouring sensors both carry `id`. */
  ghost predicate NoAdjacentMatches(ss: seq<Sensor>, id: string) {
    forall i | 0 <= i < |ss| - 1 :: ss[i].sensorId != id || ss[i + 1].sensorId != id
  }

  ghost predicate UniqueIds(ss: seq<Sensor>) {
    forall i, j | 0 <= i < j < |ss| :: ss[i].sensorId != ss[j].sensorId
  }

  /** The two filters split a list: every sensor goes to exactly one side, with its multiplicity. */
  lemma {:induction false} FiltersPartition(ss: seq<Sensor>, id: string)
    ensures multiset(WithId(ss, id)) + multiset(WithoutId(ss, id)) == multiset(ss)
    decreases |ss|
  {
    if ss != [] {
      FiltersPartition(ss[1..], id);
      assert multiset(ss) == multiset{ss[0]} + multiset(ss[1..]) by {
        Seqs.HeadTail(ss);
      }
    }
  }

  /**
   * Filtering commutes with concatenation, so the sensors that survive keep
   * their relative order: whatever stood before another still does.
   */
  lemma {:induction false} WithoutIdKeepsOrder(a: seq<Sensor>, b: seq<Sensor>, id: string)
    ensures WithoutId(a + b, id) == WithoutId(a, id) + WithoutId(b, id)
    decreases |a|
  {
    if a == [] {
      assert a + b == b;
    } else {
      var head := if a[0].sensorId != id then [a[0]] else [];
      var ab := a + b;
      assert ab[0] == a[0] && ab[1..] == a[1..] + b;
      assert WithoutId(ab, id) == head + WithoutId(a[1..] + b, id);
      WithoutIdKeepsOrder(a[1..], b, id);
      assert WithoutId(a, id) == head + WithoutId(a[1..], id);
      Seqs.AppendAssoc(head, WithoutId(a[1..], id), WithoutId(b, id));
    }
  }

  /** The intended removal disconnects and keeps complementary parts of the list, in order. */
  lemma RemoveSensorAllSplitsList(c: Controller, id: string, a: seq<Sensor>, b: seq<Sensor>)
    requires c.sensors == a + b
    ensures RemoveSensorAll(c, id).sensors == WithoutId(a, id) + WithoutId(b, id)
    ensures multiset(RemoveSensorAll(c, id).sensors) + multiset(WithId(c.sensors, id)) == multiset(c.sensors)
  {
    WithoutIdKeepsOrder(a, b, id);
    FiltersPartition(c.sensors, id);
  }

  lemma NoAdjacentMatchesSuffix(ss: seq<Sensor>, id: string, n: nat)
    requires NoAdjacentMatches(ss, id) && n <= |ss|
    ensures NoAdjacentMatches(ss[n..], id)
  {
    var t := ss[n..];
    forall i | 0 <= i < |t| - 1
      ensures t[i].sensorId != id || t[i + 1].sensorId != id
    {
      assert t[i] == ss[n + i] && t[i + 1] == ss[n + i + 1];
    }
  }

  /**
   * When no two neighbours share the id, the loop's skip never hides a
   * match: it keeps exactly the other sensors, in their order, and drops
   * exactly the matching ones, in theirs.
   */
  lemma {:induction false} RemovePassFiltersWithoutAdjacentMatches(ss: seq<Sensor>, id: string)
    requires NoAdjacentMatches(ss, id)
    ensures RemovePass(ss, id) == Removal(WithoutId(ss, id), WithId(ss, id))
    decreases |ss|
  {
    if ss == [] {
    } else if ss[0].sensorId != id {
      NoAdjacentMatchesSuffix(ss, id, 1);
      RemovePassFiltersWithoutAdjacentMatches(ss[1..], id);
    } else if |ss| >= 2 {
      var tail := ss[1..];
      assert tail[0] == ss[1] && tail[1..] == ss[2..];
      assert ss[1].sensorId != id;
      assert WithoutId(tail, id) == [ss[1]] + WithoutId(ss[2..], id);
      assert WithId(tail, id) == WithId(ss[2..], id);
      NoAdjacentMatchesSuffix(ss, id, 2);
      RemovePassFiltersWithoutAdjacentMatches(ss[2..], id);
    }
  }

  /**
   * `ss` is an interleaving of `a` and `b`: both are subsequences of `ss` in
   * its order, and together they use up every position of `ss` exactly once.
   */
  ghost predicate Interleaves(ss: seq<Sensor>, a: seq<Sensor>, b: seq<Sensor>)
    decreases |ss|
  {
    if ss == [] then a == [] && b == []
    else
      || (|a| > 0 && a[0] == ss[0] && Interleaves(ss[1..], a[1..], b))
      || (|b| > 0 && b[0] == ss[0] && Interleaves(ss[1..], a, b[1..]))
  }

  /**
   * Whatever the ids, the loop's kept and dropped sensors are both in list
   * order: the list is an interleaving of the two.
   */
  lemma {:induction false} RemovePassInterleaves(ss: seq<Sensor>, id: string)
    ensures Interleaves(ss, RemovePass(ss, id).kept, RemovePass(ss, id).dropped)
    decreases |ss|
  {
    if ss == [] {
    } else if ss[0].sensorId != id {
      var rest := RemovePass(ss[1..], id);
      RemovePassInterleaves(ss[1..], id);
      Seqs.ConsParts(ss[0], rest.kept);
    } else if |ss| == 1 {
      assert ss[1..] == [];
    } else {
      var rest := RemovePass(ss[2..], id);
      RemovePassInterleaves(ss[2..], id);
      var kept := [ss[1]] + rest.kept;
      Seqs.ConsParts(ss[1], rest.kept);
      Seqs.ConsParts(ss[0], rest.dropped);
      var tail := ss[1..];
      assert tail[0] == ss[1] && tail[1..] == ss[2..];
      assert Interleaves(tail, kept, rest.dropped);
    }
  }

  /** Whatever the ids, the sensors without the id all survive the loop, in their original order. */
  lemma {:induction false} RemovePassKeepsOthersInOrder(ss: seq<Sensor>, id: string)
    ensures WithoutId(RemovePass(ss, id).kept, id) == WithoutId(ss, id)
    decreases |ss|
  {
    if ss == [] {
    } else if ss[0].sensorId != id {
      var rest := RemovePass(ss[1..], id);
      RemovePassKeepsOthersInOrder(ss[1..], id);
      WithoutIdKeepsOrder([ss[0]], rest.kept, id);
      WithoutIdKeepsOrder([ss[0]], ss[1..], id);
      Seqs.HeadTail(ss);
    } else if |ss| == 1 {
      assert WithoutId(ss, id) == [] + WithoutId(ss[1..], id);
    } else {
      var rest := RemovePass(ss[2..], id);
      RemovePassKeepsOthersInOrder(ss[2..], id);
      WithoutIdKeepsOrder([ss[1]], rest.kept, id);
      WithoutIdKeepsOrder([ss[0], ss[1]], ss[2..], id);
      assert ss == [ss[0], ss[1]] + ss[2..];
      assert WithoutId([ss[0], ss[1]], id) == WithoutId([ss[1]], id) by {
        assert [ss[0], ss[1]][1..] == [ss[1]];
      }
    }
  }

  /**
   * `remove_sensor` as written, for any list: the sensors left and the
   * sensors disconnected are both in list order and interleave to the old
   * list, and every sensor without the id is still there, in order.
   */
  lemma RemoveSensorKeepsOrder(c: Controller, id: string)
    ensures Interleaves(c.sensors, RemoveSensor(c, id).sensors, RemovePass(c.sensors, id).dropped)
    ensures WithoutId(RemoveSensor(c, id).sensors, id) == WithoutId(c.sensors, id)
  {
    RemovePassInterleaves(c.sensors, id);
    RemovePassKeepsOthersInOrder(c.sensors, id);
  }

  /** Without neighbouring duplicates of the id, `remove_sensor` does what it was meant to. */
  lemma RemoveSensorAsIntendedWithoutAdjacentMatches(c: Controller, id: string)
    requires NoAdjacentMatches(c.sensors, id)
    ensures RemoveSensor(c, id) == RemoveSensorAll(c, id)
  {
    RemovePassFiltersWithoutAdjacentMatches(c.sensors, id);
  }

  /** Two neighbouring sensors with the same id: `remove_sensor` drops only the first. */
  lemma RemoveSensorSkipsAdjacentDuplicate(c: Controller, a: Sensor, b: Sensor)
    requires c.sensors == [a, b] && a.sensorId == b.sensorId
    ensures RemoveSensor(c, a.sensorId).sensors == [b]
    ensures RemoveSensorAll(c, a.sensorId).sensors == []
  {
    assert RemovePass(c.sensors, a.sensorId) == Removal([b], [a]) by {
      assert c.sensors[2..] == [];
    }
    assert c.sensors[1..] == [b] && [b][1..] == [];
    assert WithoutId(c.sensors, a.sensorId) == [];
  }

  lemma {:induction false} NoMatchKeepsAll(ss: seq<Sensor>, id: string)
    requires forall j | 0 <= j < |ss| :: ss[j].sensorId != id
    ensures RemovePass(ss, id) == Removal(ss, [])
    ensures WithoutId(ss, id) == ss && WithId(ss, id) == []
    decreases |ss|
  {
    if ss != [] {
      NoMatchKeepsAll(ss[1..], id);
      assert ss == [ss[0]] + ss[1..];
    }
  }

  lemma {:induction false} SingleMatch(ss: seq<Sensor>, id: string, k: nat)
    requires k < |ss| && ss[k].sensorId == id
    requires forall j | 0 <= j < |ss| && j != k :: ss[j].sensorId != id
    ensures WithoutId(ss, id) == ss[..k] + ss[k + 1..]
    ensures WithId(ss, id) == [ss[k]]
    decreases |ss|
  {
    var tail := ss[1..];
    if k == 0 {
      assert forall j | 0 <= j < |tail| :: tail[j] == ss[j + 1];
      NoMatchKeepsAll(tail, id);
      assert ss[..k] + ss[k + 1..] == tail;
    } else {
      assert forall j | 0 <= j < |tail| && j != k - 1 :: tail[j] == ss[j + 1];
      SingleMatch(tail, id, k - 1);
      Seqs.SplitAroundCons(ss, k);
    }
  }

  /**
   * With unique ids, removing a registered sensor's id disconnects exactly
   * that sensor, leaves the others in their order, and emits
   * `sensorcount_changed`.
   */
  lemma RemoveSensorWithUniqueIds(c: Controller, k: nat)
    requires UniqueIds(c.sensors) && k < |c.sensors|
    ensures var id := c.sensors[k].sensorId;
      var r := RemoveSensor(c, id);
      && r.sensors == c.sensors[..k] + c.sensors[k + 1..]
      && r.trace == c.trace + [Call(id, Disconnect), Emit(SensorcountChanged)]
  {
    var ss := c.sensors;
    var id := ss[k].sensorId;
    SingleMatch(ss, id, k);
    RemovePassFiltersWithoutAdjacentMatches(ss, id);
    var r := RemoveSensor(c, id);
    assert Since(c.trace, r.trace)[0] == Call(id, Disconnect);
    assert r.trace == c.trace + Since(c.trace, r.trace);
  }

  /** With an id nobody has, `remove_sensor` still emits `sensorcount_changed` and changes nothing else. */
  lemma RemoveUnknownSensorStillNotifies(c: Controller, id: string)
    requires forall s | s in c.sensors :: s.sensorId != id
    ensures RemoveSensor(c, id) == c.(trace := c.trace + [Emit(SensorcountChanged)])
  {
    NoMatchKeepsAll(c.sensors, id);
  }

  lemma RemovePassCons(x: Sensor, w: seq<Sensor>, id: string)
    requires x.sensorId != id
    ensures RemovePass([x] + w, id) == Removal([x] + RemovePass(w, id).kept, RemovePass(w, id).dropped)
  {
    Seqs.ConsParts(x, w);
  }

  lemma {:induction false} RemovePassPastUnmatched(ss: seq<Sensor>, rest: seq<Sensor>, id: string)
    requires forall j | 0 <= j < |ss| :: ss[j].sensorId != id
    ensures RemovePass(ss + rest, id) == Removal(ss + RemovePass(rest, id).kept, RemovePass(rest, id).dropped)
    decreases |ss|
  {
    if ss == [] {
      assert ss + rest == rest;
    } else {
      var x, tail := ss[0], ss[1..];
      Seqs.HeadTail(ss);
      Seqs.AppendAssoc([x], tail, rest);
      RemovePassCons(x, tail + rest, id);
      RemovePassPastUnmatched(tail, rest, id);
      Seqs.AppendAssoc([x], tail, RemovePass(rest, id).kept);
    }
  }

  /**
   * A newly created sensor whose id is fresh is removed again by its id:
   * the list is back where it was, and only that sensor was disconnected.
   */
  lemma RemovingNewSensorRestoresList(c: Controller, handle: Sensor)
    requires forall s | s in c.sensors :: s.sensorId != handle.sensorId
    ensures var r := RemoveSensor(OnSensorCreated(c, handle), handle.sensorId);
      && r.sensors == c.sensors
      && r.trace == c.trace + [Emit(SensorcountChanged), Call(handle.sensorId, Disconnect), Emit(SensorcountChanged)]
  {
    var created := OnSensorCreated(c, handle);
    var wired := created.sensors[|c.sensors|];
    assert created.sensors == c.sensors + [wired];
    RemovePassPastUnmatched(c.sensors, [wired], handle.sensorId);
    assert RemovePass([wired], handle.sensorId) == Removal([], [wired]);
    assert c.sensors + [] == c.sensors;
    var r := RemoveSensor(created, handle.sensorId);
    assert Since(created.trace, r.trace)[0] == Call(handle.sensorId, Disconnect);
    assert r.trace == created.trace + Since(created.trace, r.trace);
  }

  // ---------------------------------------------------------------------
  // Routing

  /** `sensor_action` reaches a sensor id exactly when it is the requested one and registered. */
  lemma SensorActionReachesExactlyMatchingId(c: Controller, id: string, actionId: string, target: string)
    ensures var r := SensorAction(c, id, actionId);
      Call(target, Action(actionId)) in Since(c.trace, r.trace) <==>
        target == id && exists s :: s in c.sensors && s.sensorId == id
  {
    var r := SensorAction(c, id, actionId);
    var sent := Since(c.trace, r.trace);
    if exists s :: s in c.sensors && s.sensorId == id {
      var s :| s in c.sensors && s.sensorId == id;
      assert s in WithId(c.sensors, id);
      assert sent[0] in sent;
    }
  }

  /** The intended `message_to_sensor` reaches a sensor id exactly when a sensor of that type has it. */
  lemma MessageReachesExactlyTypedSensors(c: Controller, sensortype: string, msg: string, target: string)
    ensures var r := MessageToSensorByType(c, sensortype, msg);
      Call(target, Message(msg)) in Since(c.trace, r.trace) <==>
        exists s :: s in c.sensors && s.sensorId == target && s.sensorType == Some(sensortype)
  {
    var r := MessageToSensorByType(c, sensortype, msg);
    var sent := Since(c.trace, r.trace);
    var typed := OfType(c.sensors, sensortype);
    if Call(target, Message(msg)) in sent {
      var i :| 0 <= i < |sent| && sent[i] == Call(target, Message(msg));
      assert typed[i] in typed;
    }
    if exists s :: s in c.sensors && s.sensorId == target && s.sensorType == Some(sensortype) {
      var s :| s in c.sensors && s.sensorId == target && s.sensorType == Some(sensortype);
      assert s in typed;
      var i :| 0 <= i < |typed| && typed[i] == s;
      assert sent[i] == Call(target, Message(msg));
    }
  }

  /** As written, a message for a type some sensor has is lost, where the intended routing delivers it. */
  lemma MessageToSensorLosesTypedMessage(c: Controller, sensortype: string, msg: string, s: Sensor)
    requires s in c.sensors && s.sensorType == Some(sensortype)
    ensures MessageToSensor(c, sensortype, msg).trace == c.trace
    ensures Call(s.sensorId, Message(msg)) in Since(c.trace, MessageToSensorByType(c, sensortype, msg).trace)
  {
    MessageReachesExactlyTypedSensors(c, sensortype, msg, s.sensorId);
  }

  // ---------------------------------------------------------------------
  // Keyboard contingency

  /** A matching keypress disarms the contingency: the next keypress, whatever the key, does nothing. */
  lemma KeypressDisarms(c: Controller, key: string, now: real, next: string, later: real)
    requires key in c.contingency
    ensures var s := OnKeypress(c, key, now).state;
      OnKeypress(s, next, later) == Step(s, Returned)
    ensures var s := OnKeypressIntended(c, key, now).state;
      OnKeypressIntended(s, next, later) == Step(s, Returned)
  {
  }

  /**
   * As written, an armed keypress raises before any sensor gets the keypress
   * tag; the intended call gives the first sensor that tag, with the key as
   * its id.
   */
  lemma KeypressTagNeverReachesSensors(c: Controller, key: string, now: real)
    requires key in c.contingency && |c.sensors| > 0
    ensures forall e | e in OnKeypress(c, key, now).state.trace :: e in c.trace || e == Emit(Continue)
    ensures OnKeypress(c, key, now).outcome.Raised?
    ensures var r := OnKeypressIntended(c, key, now).state;
      && |r.trace| > |c.trace| + 1
      && r.trace[|c.trace| + 1] == Call(c.sensors[0].sensorId, DeliverTag(KeypressTag(key, now)))
  {
    var r := OnKeypressIntended(c, key, now).state;
    var armed := c.trace + [Emit(Continue)];
    assert r.trace[|c.trace| + 1] == Since(armed, r.trace)[0];
  }

  // ---------------------------------------------------------------------
  // Data collection and relays

  /**
   * Where recordings land: a relative sub-directory goes under the save root
   * after one `/`, while an absolute one escapes the save root and every
   * sensor records straight into it.
   */
  lemma SavePathPlacement(c: Controller, subdir: string, filename: string)
    ensures var r := StartCollectingData(c, subdir, filename);
      Paths.IsAbsolute(subdir) ==> FansOut(Since(c.trace, r.trace), c.sensors, StartRecording(subdir, filename))
    ensures var r := StartCollectingData(c, subdir, filename);
      !Paths.IsAbsolute(subdir) && c.savedir != "" && c.savedir[|c.savedir| - 1] != '/' ==>
        FansOut(Since(c.trace, r.trace), c.sensors, StartRecording(c.savedir + "/" + subdir, filename))
  {
    var path := Paths.Join(c.savedir, subdir);
    if !Paths.IsAbsolute(subdir) && c.savedir != "" && c.savedir[|c.savedir| - 1] != '/' {
      assert path[..|c.savedir|] == c.savedir && path[|c.savedir|] == '/';
      assert path[|c.savedir| + 1..] == subdir;
      assert path == c.savedir + "/" + subdir;
    }
  }

  /** A fresh controller's save root ends in `recordings`, so relative sub-directories stay under it. */
  lemma NewControllerSaveRootIsRecordings(home: string)
    ensures var c := NewController(home);
      && |c.savedir| > |"recordings"|
      && c.savedir[|c.savedir| - |"recordings"|..] == "recordings"
      && c.savedir[|c.savedir| - 1] != '/'
  {
    var root := Paths.Join(Paths.Join(home, "Documents"), "ldrop_data");
    var save := NewController(home).savedir;
    assert save == Paths.Join(root, "recordings");
    assert |root| > 0;
    assert save == root + "/" + "recordings";
    assert save[|save| - 1] == "recordings"[9];
  }

  /**
   * Starting and then stopping collection calls `start_recording` on every
   * sensor in order, then `stop_recording` on every sensor in order; the
   * completion callback is only queued, after the last `stop_recording`.
   */
  lemma StartThenStopCollecting(c: Controller, subdir: string, filename: string, callback: Option<Callback>)
    ensures var r := StopCollectingData(StartCollectingData(c, subdir, filename), callback);
      && Extends(c.trace, r.trace)
      && |Since(c.trace, r.trace)| == 2 * |c.sensors|
      && FansOut(Since(c.trace, r.trace)[..|c.sensors|], c.sensors,
                 StartRecording(Paths.Join(c.savedir, subdir), filename))
      && FansOut(Since(c.trace, r.trace)[|c.sensors|..], c.sensors, StopRecording)
      && r.tasks == c.tasks + (if callback.Some? then [Deferred(callback.value)] else [])
  {
    var started := StartCollectingData(c, subdir, filename);
    var r := StopCollectingData(started, callback);
    SinceChains(c.trace, started.trace, r.trace);
  }

  /** `run` is `play` exactly in headless mode, and a no-op with a front end attached. */
  lemma RunPlaysOnlyHeadless(c: Controller)
    ensures c.frontEnds == 0 ==> Run(c) == Play(c)
    ensures c.frontEnds > 0 ==> Run(c) == c
  {
  }
}

=== FILE: paths.dfy ===
/** Path composition as POSIX `os.path.join` performs it on two components. */
module Paths {

  predicate IsAbsolute(p: string) {
    |p| > 0 && p[0] == '/'
  }

  /**
   * `os.path.join(a, b)`: an absolute `b` discards `a`; otherwise `b` follows
   * `a`, with one `/` inserted unless `a` is empty or already ends in `/`.
   */
  function Join(a: string, b: string): (p: string)
    ensures |b| <= |p| && p[|p| - |b|..] == b
    ensures IsAbsolute(b) ==> p == b
    ensures !IsAbsolute(b) ==> |a| <= |p| && p[..|a|] == a
    ensures !IsAbsolute(b) ==> |p| - |a| - |b| == (if a == "" || a[|a| - 1] == '/' then 0 else 1)
    ensures !IsAbsolute(b) && |a| > 0 ==> p[|p| - |b| - 1] == '/'
  {
    if IsAbsolute(b) then b
    else if a == "" || a[|a| - 1] == '/' then a + b
    else a + "/" + b
  }
}

=== FILE: sensors.dfy ===
/**
 * The base sensor record every device plugin extends: its identity, type,
 * control elements, data conditions and listener table, with the base
 * class's default behaviour for each operation.
 */
module Sensors {
  import opened Basics
  import opened Subscriptions
  import Decimal

  /** An opaque user-interface action the sensor offers, named by its action id. */
  datatype ControlElement = ControlElement(actionId: string)

  /** An opaque predicate the device evaluates itself; the model only stores it. */
  datatype DataCondition = DataCondition(descriptor: string)

  datatype Sensor = Sensor(
    sensorId: string,
    sensorType: Option<string>,
    controlElements: seq<ControlElement>,
    dataConditions: seq<DataCondition>,
    listeners: seq<Listener>)

  const IdPrefix: string := "sensor"

  /** The largest value `random.randint(0, 100000)` can draw (both ends inclusive). */
  const MaxDraw: int := 100000

  /** Recovers the random draw from a sensor id; `None` for text the constructor never builds. */
  function ParseSensorId(id: string): Option<nat> {
    if |id| >= |IdPrefix| && id[..|IdPrefix|] == IdPrefix then Decimal.Parse(id[|IdPrefix|..]) else None
  }

  /**
   * The base constructor, with the value `random.randint` drew passed in:
   * no type, no control elements, no data conditions, no listeners.
   */
  function NewSensor(draw: int): (s: Sensor)
    requires 0 <= draw <= MaxDraw
    ensures ParseSensorId(s.sensorId) == Some(draw)
    ensures |IdPrefix| < |s.sensorId| <= |IdPrefix| + 6
    ensures s.sensorType == None
    ensures s.controlElements == [] && s.dataConditions == [] && s.listeners == []
  {
    var digits := Decimal.ToDecimal(draw);
    Decimal.ParseToDecimal(draw);
    Decimal.WidthBelowPower(draw, 6);
    assert (IdPrefix + digits)[|IdPrefix|..] == digits;
    Sensor(IdPrefix + digits, None, [], [], [])
  }

  /** Two sensors get the same id exactly when the random draws coincide. */
  lemma SensorIdsCollideIffDrawsDo(a: int, b: int)
    requires 0 <= a <= MaxDraw && 0 <= b <= MaxDraw
    ensures NewSensor(a).sensorId == NewSensor(b).sensorId <==> a == b
  {
  }

  /** Every id the parser accepts is the id a constructor with that draw builds. */
  lemma ParsedIdIsConstructed(id: string, n: nat)
    requires ParseSensorId(id) == Some(n) && n <= MaxDraw
    ensures id == NewSensor(n).sensorId
  {
    Decimal.ToDecimalOfParse(id[|IdPrefix|..], n);
    assert id == id[..|IdPrefix|] + id[|IdPrefix|..];
  }

  function GetType(s: Sensor): Option<string> {
    s.sensorType
  }

  function GetSensorId(s: Sensor): string {
    s.sensorId
  }

  function GetControlElements(s: Sensor): seq<ControlElement> {
    s.controlElements
  }

  /** The accessors read back what the constructor stored. */
  lemma AccessorsReadStoredFields(draw: int)
    requires 0 <= draw <= MaxDraw
    ensures var s := NewSensor(draw);
      && GetType(s) == None
      && GetControlElements(s) == []
      && ParseSensorId(GetSensorId(s)) == Some(draw)
  {
  }

  /** Setting or clearing data conditions leaves every accessor's answer alone. */
  lemma ConditionUpdatesKeepAccessors(s: Sensor, condition: DataCondition)
    ensures var appended := SetDataCondition(s, condition);
      && GetType(appended) == GetType(s)
      && GetSensorId(appended) == GetSensorId(s)
      && GetControlElements(appended) == GetControlElements(s)
    ensures var cleared := ClearDataConditions(s);
      && GetType(cleared) == GetType(s)
      && GetSensorId(cleared) == GetSensorId(s)
      && GetControlElements(cleared) == GetControlElements(s)
  {
  }

  /** `set_data_condition`: appends the condition and changes nothing else. */
  function SetDataCondition(s: Sensor, condition: DataCondition): (r: Sensor)
    ensures |r.dataConditions| == |s.dataConditions| + 1
    ensures r.dataConditions[..|s.dataConditions|] == s.dataConditions
    ensures r.dataConditions[|s.dataConditions|] == condition
    ensures r.(dataConditions := s.dataConditions) == s
  {
    s.(dataConditions := s.dataConditions + [condition])
  }

  /** `clear_data_conditions`: empties the conditions and changes nothing else. */
  function ClearDataConditions(s: Sensor): (r: Sensor)
    ensures r.dataConditions == []
    ensures r.(dataConditions := s.dataConditions) == s
  {
    s.(dataConditions := [])
  }

  /** A run of `set_data_condition` calls. */
  function SetDataConditions(s: Sensor, conditions: seq<DataCondition>): Sensor
    decreases |conditions|
  {
    if conditions == [] then s
    else SetDataConditions(SetDataCondition(s, conditions[0]), conditions[1..])
  }

  /** Conditions accumulate in the order they were set, and nothing else changes. */
  lemma {:induction false} SetDataConditionsAppendsInOrder(s: Sensor, conditions: seq<DataCondition>)
    ensures SetDataConditions(s, conditions).dataConditions == s.dataConditions + conditions
    ensures SetDataConditions(s, conditions).(dataConditions := s.dataConditions) == s
    decreases |conditions|
  {
    if conditions != [] {
      var next := SetDataCondition(s, conditions[0]);
      SetDataConditionsAppendsInOrder(next, conditions[1..]);
      assert s.dataConditions + conditions == next.dataConditions + conditions[1..];
    }
  }

  /** Clearing is idempotent and forgets every condition set before it. */
  lemma ClearForgetsConditions(s: Sensor, conditions: seq<DataCondition>)
    ensures ClearDataConditions(ClearDataConditions(s)) == ClearDataConditions(s)
    ensures ClearDataConditions(SetDataConditions(s, conditions)) == ClearDataConditions(s)
  {
    SetDataConditionsAppendsInOrder(s, conditions);
  }

  /** The base `action`: no control element action is handled. */
  function DefaultAction(s: Sensor, actionId: string): (handled: bool)
    ensures !handled
  {
    false
  }

  /** The base `trial_started(tn, tc)`. */
  function TrialStarted(s: Sensor, trialNumber: int, trialCount: int): (handled: bool)
    ensures !handled
  {
    false
  }

  /** The base `trial_completed(name, tn, tc, misc)`. */
  function TrialCompleted(s: Sensor, name: string, trialNumber: int, trialCount: int, misc: string): (handled: bool)
    ensures !handled
  {
    false
  }

  /** The result of the base `disconnect`. */
  datatype Disconnection = Disconnection(sensor: Sensor, notified: seq<Handler>, returned: bool)

  /**
   * The base `disconnect`: emits `clear_screen` to whatever listens for it,
   * then removes every listener, and returns False.
   */
  function DisconnectSensor(s: Sensor): (r: Disconnection)
    ensures forall h :: h in r.notified <==> Listener("clear_screen", h) in s.listeners
    ensures forall h :: multiset(r.notified)[h] == multiset(s.listeners)[Listener("clear_screen", h)]
    ensures r.sensor.listeners == []
    ensures r.sensor.(listeners := s.listeners) == s
    ensures !r.returned
  {
    var notified := HandlersOf(s.listeners, "clear_screen");
    Disconnection(s.(listeners := []), notified, false)
  }

  /** A second `disconnect` reaches nobody and changes nothing. */
  lemma DisconnectIsFinal(s: Sensor)
    ensures var once := DisconnectSensor(s).sensor;
      DisconnectSensor(once) == Disconnection(once, [], false)
  {
  }
}

=== FILE: seqs.dfy ===
/** Facts about sequence concatenation, stated once for every element type. */
module Seqs {

  lemma AppendAssoc<T>(a: seq<T>, b: seq<T>, c: seq<T>)
    ensures (a + b) + c == a + (b + c)
  {
  }

  lemma HeadTail<T>(s: seq<T>)
    requires |s| > 0
    ensures s == [s[0]] + s[1..]
  {
  }

  lemma ConsParts<T>(x: T, w: seq<T>)
    ensures ([x] + w)[0] == x && ([x] + w)[1..] == w
  {
  }

  /** Cutting out position `k > 0` commutes with taking off the head. */
  lemma SplitAroundCons<T>(ss: seq<T>, k: nat)
    requires 0 < k < |ss|
    ensures ss[..k] + ss[k + 1..] == [ss[0]] + (ss[1..][..k - 1] + ss[1..][k..])
  {
    assert ss[1..][..k - 1] == ss[1..k] && ss[1..][k..] == ss[k + 1..];
    assert ss[..k] == [ss[0]] + ss[1..k];
    AppendAssoc([ss[0]], ss[1..k], ss[k + 1..]);
  }
}

=== FILE: subscriptions.dfy ===
/**
 * The per-emitter listener table of the event emitter every sensor inherits
 * from, and the controller's `add_model` / `remove_model`, which install and
 * remove its seven relays on such a table.
 */
module Subscriptions {
  import Seqs

  /** A handler: one of the controller's seven relays, or anybody else's callable. */
  datatype Handler =
    | HandleTag
    | HandleData
    | HandleCloseController
    | HandleStartCollectingData
    | HandleStopCollectingData
    | HandleLogMessage
    | HandleQuery
    | Foreign(name: string)

  /** One `emitter.on(event, handler)` registration. */
  datatype Listener = Listener(event: string, handler: Handler)

  /** The pairs `add_model` installs, in the order it installs them. */
  const ControllerSubscriptions: seq<Listener> := [
    Listener("tag", HandleTag),
    Listener("data", HandleData),
    Listener("close_controller", HandleCloseController),
    Listener("start_collecting_data", HandleStartCollectingData),
    Listener("stop_collecting_data", HandleStopCollectingData),
    Listener("log_message", HandleLogMessage),
    Listener("query", HandleQuery)
  ]

  /** `emitter.on(event, handler)`: the handler is called after those already there. */
  function On(table: seq<Listener>, event: string, handler: Handler): seq<Listener> {
    table + [Listener(event, handler)]
  }

  /** Position of the earliest registration of `l`. */
  function IndexOf(table: seq<Listener>, l: Listener): (k: nat)
    requires l in table
    ensures k < |table| && table[k] == l && l !in table[..k]
  {
    if table[0] == l then 0
    else
      assert table == [table[0]] + table[1..];
      var k := IndexOf(table[1..], l) + 1;
      assert table[..k] == [table[0]] + table[1..][..k - 1];
      k
  }

  /** `emitter.remove_listener(event, handler)`: drops the earliest matching registration. */
  function RemoveListener(table: seq<Listener>, event: string, handler: Handler): (r: seq<Listener>)
    ensures Listener(event, handler) !in table ==> r == table
  {
    if table == [] then []
    else
      if table[0] == Listener(event, handler) then table[1..]
      else [table[0]] + RemoveListener(table[1..], event, handler)
  }

  /** The registration `remove_listener` drops is the earliest one of the pair. */
  lemma {:induction false} RemoveListenerDropsEarliest(table: seq<Listener>, event: string, handler: Handler)
    requires Listener(event, handler) in table
    ensures var k := IndexOf(table, Listener(event, handler));
      RemoveListener(table, event, handler) == table[..k] + table[k + 1..]
  {
    var l := Listener(event, handler);
    if table[0] != l {
      var k := IndexOf(table, l);
      RemoveListenerDropsEarliest(table[1..], event, handler);
      assert IndexOf(table[1..], l) == k - 1;
      Seqs.SplitAroundCons(table, k);
    }
  }

  /** Registers each pair in turn, as a run of `on` calls. */
  function OnEach(table: seq<Listener>, pairs: seq<Listener>): (r: seq<Listener>)
    ensures |r| == |table| + |pairs|
    ensures r[..|table|] == table && r[|table|..] == pairs
    decreases |pairs|
  {
    if pairs == [] then table
    else
      assert table + pairs == (table + [pairs[0]]) + pairs[1..];
      OnEach(On(table, pairs[0].event, pairs[0].handler), pairs[1..])
  }

  /** `remove_listener` takes away exactly one copy of the pair, if there is one. */
  lemma {:induction false} RemoveListenerTakesOneCopy(table: seq<Listener>, event: string, handler: Handler)
    ensures multiset(RemoveListener(table, event, handler)) == multiset(table) - multiset{Listener(event, handler)}
  {
    var l := Listener(event, handler);
    if table != [] {
      var rest := table[1..];
      assert table == [table[0]] + rest;
      var m := multiset(rest);
      assert multiset(table) == multiset{table[0]} + m;
      if table[0] == l {
        assert forall x :: ((multiset{l} + m) - multiset{l})[x] == m[x];
      } else {
        RemoveListenerTakesOneCopy(rest, event, handler);
        var r := RemoveListener(rest, event, handler);
        assert RemoveListener(table, event, handler) == [table[0]] + r;
        assert multiset([table[0]] + r) == multiset{table[0]} + multiset(r);
        assert forall x :: (multiset{table[0]} + (m - multiset{l}))[x] == ((multiset{table[0]} + m) - multiset{l})[x];
      }
    }
  }

  /** Unregisters each pair in turn, as a run of `remove_listener` calls. */
  function RemoveEach(table: seq<Listener>, pairs: seq<Listener>): (r: seq<Listener>)
    ensures multiset(r) == multiset(table) - multiset(pairs)
    decreases |pairs|
  {
    if pairs == [] then table
    else
      var t := RemoveListener(table, pairs[0].event, pairs[0].handler);
      var r := RemoveEach(t, pairs[1..]);
      RemoveListenerTakesOneCopy(table, pairs[0].event, pairs[0].handler);
      assert pairs == [pairs[0]] + pairs[1..];
      assert multiset(pairs) == multiset{pairs[0]} + multiset(pairs[1..]);
      MultisetMinusMinus(multiset(table), multiset{pairs[0]}, multiset(pairs[1..]));
      r
  }

  lemma MultisetMinusMinus<T>(m: multiset<T>, a: multiset<T>, b: multiset<T>)
    ensures (m - a) - b == m - (a + b)
  {
    assert forall x :: ((m - a) - b)[x] == (m - (a + b))[x];
  }

  /** `add_model`: subscribes the seven relays to the emitter, in this order. */
  function AddModel(table: seq<Listener>): (r: seq<Listener>)
    ensures |r| == |table| + 7
    ensures r[..|table|] == table && r[|table|..] == ControllerSubscriptions
  {
    OnEach(table, ControllerSubscriptions)
  }

  /** `remove_model`: unsubscribes the seven relays, one `remove_listener` call each. */
  function RemoveModel(table: seq<Listener>): (r: seq<Listener>)
    ensures multiset(r) == multiset(table) - multiset(ControllerSubscriptions)
  {
    RemoveEach(table, ControllerSubscriptions)
  }

  /** The handlers `emit(event)` calls, in call order. */
  function HandlersOf(table: seq<Listener>, event: string): (hs: seq<Handler>)
    ensures |hs| <= |table|
    ensures forall h :: h in hs <==> Listener(event, h) in table
    ensures forall h :: multiset(hs)[h] == multiset(table)[Listener(event, h)]
  {
    if table == [] then []
    else
      assert table == [table[0]] + table[1..];
      (if table[0].event == event then [table[0].handler] else []) + HandlersOf(table[1..], event)
  }

  lemma RemoveListenerCons(x: Listener, w: seq<Listener>, event: string, handler: Handler)
    requires x != Listener(event, handler)
    ensures RemoveListener([x] + w, event, handler) == [x] + RemoveListener(w, event, handler)
  {
    Seqs.ConsParts(x, w);
  }

  /** Removing a registration that is not in a prefix leaves that prefix alone. */
  lemma {:induction false} RemoveListenerPastPrefix(t: seq<Listener>, u: seq<Listener>, event: string, handler: Handler)
    requires Listener(event, handler) !in t
    ensures RemoveListener(t + u, event, handler) == t + RemoveListener(u, event, handler)
  {
    if t == [] {
      assert t + u == u;
    } else {
      var x, rest := t[0], t[1..];
      Seqs.HeadTail(t);
      Seqs.AppendAssoc([x], rest, u);
      RemoveListenerCons(x, rest + u, event, handler);
      RemoveListenerPastPrefix(rest, u, event, handler);
      Seqs.AppendAssoc([x], rest, RemoveListener(u, event, handler));
    }
  }

  /** Unregistering pairs that were registered last, and nowhere before, restores the table. */
  lemma {:induction false} RemoveEachUndoesOnEach(table: seq<Listener>, pairs: seq<Listener>)
    requires forall i | 0 <= i < |pairs| :: pairs[i] !in table
    ensures RemoveEach(table + pairs, pairs) == table
  {
    if pairs != [] {
      var p := pairs[0];
      RemoveListenerPastPrefix(table, pairs, p.event, p.handler);
      assert RemoveListener(pairs, p.event, p.handler) == pairs[1..];
      RemoveEachUndoesOnEach(table, pairs[1..]);
    }
  }

  /**
   * `remove_model` after `add_model` restores a table that held none of the
   * seven relays, such as the empty table of a freshly constructed sensor.
   */
  lemma RemoveModelUndoesAddModel(table: seq<Listener>)
    requires forall i | 0 <= i < |ControllerSubscriptions| :: ControllerSubscriptions[i] !in table
    ensures RemoveModel(AddModel(table)) == table
  {
    assert AddModel(table) == table + ControllerSubscriptions;
    RemoveEachUndoesOnEach(table, ControllerSubscriptions);
  }

  lemma RemoveEachAfterOnEach(table: seq<Listener>, pairs: seq<Listener>)
    ensures multiset(RemoveEach(OnEach(table, pairs), pairs)) == multiset(table)
  {
    var added := OnEach(table, pairs);
    assert added == table + pairs;
    var m := multiset(table);
    var p := multiset(pairs);
    assert multiset(added) == m + p;
    assert forall x :: ((m + p) - p)[x] == m[x];
  }

  /** On any table, `remove_model` after `add_model` restores the same registrations. */
  lemma RemoveModelRestoresRegistrations(table: seq<Listener>)
    ensures multiset(RemoveModel(AddModel(table))) == multiset(table)
  {
    RemoveEachAfterOnEach(table, ControllerSubscriptions);
  }
}
